=== FILE: README.md ===
# jwt-auth: the account and session state machine

This project models, in Dafny, the authentication core of a small Express/Mongoose
user service: the User schema with its instance methods, and the controller handlers
that register users, log them in and out, rotate refresh tokens, change and reset
passwords, verify emails, deactivate and reactivate accounts, and apply the
status and bulk updates.

The users collection is a `Store`: a `map<UserId, Account>` plus the next id to hand
out. Ids increase with creation. The database leaves unspecified which document an
unsorted `findOne` returns when several match; the model fixes that choice as the
matching account with the least id. An `Account` keeps only
the fields that matter for authentication.

Each handler is a pure function `(Store, clock, request fields) -> Step(Store, Outcome)`.
A thrown `ApiErrors(code, …)` becomes `Failure(code)`. Any other exception becomes
`Failure(500)`: a `TypeError` on a missing document, a rejected bcrypt call, or a schema
validation error. Handlers behind the JWT middleware take the authenticated caller's
id as a parameter.

Cryptography is abstract:
- `Hash(salt, plain)` is a bcrypt digest. Its only use is `Compare`, which accepts
  exactly the password the digest was made from.
- A `Token` is `Signed(secret, claims, iat, exp)` or `Garbled(text)`.
- `Verify` checks the signature first and the expiry second. A token is expired once
  `now >= exp`, as in jsonwebtoken.

The clock is one integer, in seconds, passed to every handler. Random bcrypt salts are
parameters too.

Modules:
- `common.dfy` (`Common`): ids, the clock, `Option`, and JavaScript truthiness of
  request strings.
- `crypto.dfy` (`Crypto`): the bcrypt and jsonwebtoken stand-ins.
- `user_model.dfy` (`UserModel`): the schema (`src/models/users.model.js`) and its
  methods.
- `user_store.dfy` (`UserStore`): the collection, its invariant `Valid`, `findOne`,
  and the `$set`/`deleteMany` updates.
- `user_controller.dfy` (`UserController`): the handlers of
  `src/controllers/user.controller.js`.
- `session_properties.dfy` (`SessionProperties`): properties that relate several
  requests.

## Where the code does less than its messages and comments suggest

The model follows the code in every case below:
- Login needs both username and email. Neither login nor refresh looks at `isActive`.
  Deactivation does not clear the stored refresh token. So a deactivated account keeps
  logging in and refreshing (`LoginIgnoresIsActive`, `DeactivatedAccountCanRefresh`).
- Reactivating an account that is already active succeeds without checking the password.
- A refresh reply carries no new refresh token. The handler destructures a key the
  token helper does not return.
- `resetPassword` and `verifyEmail` answer 400 only for a `JsonWebTokenError`. An expired
  token is a 500, and so is a token that names a missing account: the `ApiErrors(400)`
  thrown for it is caught and rethrown as a 500.
- Reset and verification tokens are signed with the access secret and are not stored.
  Any unexpired access, reset or verification token works for both endpoints, and a
  reset token can be used again.
- The registration empty-field check never rejects. Its callback returns nothing, so
  missing or empty fields fail later, with a 500.
- The status and bulk updates run without update validators. They can store a role
  outside the user/admin/moderator enum, and they can set `isActive` without touching
  the deactivation record. The role checks compare the stored string, so a bulk update
  naming "admin" makes an administrator (`BulkUpdateRoleDecidesChecks`).
- The routes under `/admin` carry only the JWT middleware
  (`src/routes/user.route.js:118-120`), and neither handler checks the caller's role.
  Any authenticated caller can reach the status and bulk updates, so the handlers take
  no caller at all.
- A successful refresh sets the `refreshToken` cookie to `newRefreshToken`, which is
  `undefined`, so the cookie holds the string "undefined". That string is truthy, so
  the next refresh reads it instead of the body's token and is refused with 401
  (`UndefinedCookieShadowsBody`).
- `asyncHandler` (`src/utils/asyncHandler.js:3-7`) has a block body with no `return`.
  As written every exported handler is `undefined` and registering the routes fails.
  The model describes the handler bodies as if the wrapper returned the function it
  builds.

## Model

| member | source | states |
|---|---|---|
| Crypto.HashPassword | src/models/users.model.js:172 | a bcrypt digest accepts the password it was made from and rejects every other one, whatever the salt |
| Crypto.Sign | src/models/users.model.js:180-204 | a signed token verifies to its claims under its own secret until exactly its lifetime has elapsed, is `Expired` from then on, and is `Malformed` under any other secret |
| Crypto.Verify | src/controllers/user.controller.js:183-186 | a token fails as malformed exactly when it is unsigned or signed with another secret, is expired exactly when its own secret signed it and the clock reached its expiry, and otherwise decodes to the claims it was signed with |
| Crypto.SignDistinguishesTime | src/controllers/user.controller.js:204 | re-signing the same claims gives a different token exactly when the clock moved |
| UserModel.ParseRole | src/models/users.model.js:60-64 | a stored role string round-trips through the role type into its one canonical form, and is outside the enum exactly when it is not user/admin/moderator |
| UserModel.RoleNameRoundTrip | src/models/users.model.js:60-64 | a canonical role is recovered from its stored string |
| UserModel.CreateAccount | src/models/users.model.js:10-77 | a new document has the defaults unverified, active, role user, zero logins, no session and no deactivation record, and its digest accepts exactly the registration password |
| UserModel.PreSave | src/models/users.model.js:170-178 | a save re-hashes only a modified password; otherwise the document is unchanged, and after assigning p the account accepts p and no other password |
| UserModel.IsPasswordCorrect | src/models/users.model.js:176-178 | a password is correct exactly when the stored digest is a hash of that password under some salt |
| UserModel.GenerateAccessToken | src/models/users.model.js:180-193 | access tokens carry id, email, username and role, verify under the access secret for the access lifetime, and never under the refresh secret |
| UserModel.GenerateRefreshToken | src/models/users.model.js:194-204 | refresh tokens carry only the id, verify under the refresh secret for the refresh lifetime, and never under the access secret |
| UserModel.GeneratePasswordResetToken | src/models/users.model.js:206-217 | reset tokens carry id and email and verify under the ACCESS secret for 15 minutes |
| UserModel.GenerateEmailVerificationToken | src/models/users.model.js:219-230 | verification tokens carry id and email and verify under the ACCESS secret for 24 hours |
| UserModel.UpdateLoginStats | src/models/users.model.js:233-238 | the login count grows by exactly one, both timestamps become now, and nothing else changes |
| UserModel.GetDisplayName | src/models/users.model.js:246-248 | the full name when it is non-empty, else the username |
| UserModel.CanPerformAction | src/models/users.model.js:241-243 | an inactive or unverified account may not act, and an active, verified one may |
| UserModel.IsAdmin | src/models/users.model.js:251-253 | for a canonical role, the string check admits exactly the admin role and no role outside the enum |
| UserModel.IsModerator | src/models/users.model.js:256-258 | every admin passes; for a canonical role, exactly the admin and moderator roles pass |
| UserModel.AdminIsModerator | src/models/users.model.js:251-258 | the checks compare the stored role string; every admin passes the moderator check, and for a canonical role they admit exactly the admin role, and exactly admins and moderators |
| UserModel.Age | src/models/users.model.js:261-273 | null exactly without a birth date; otherwise the number of birthdays reached by today, so the n-th birthday is reached iff n is at most the age |
| UserStore.FindOne | src/controllers/user.controller.js:108-110 | the result is a matching account with no matching account of smaller id; in a valid store no result means no account matches |
| UserStore.Scan | src/controllers/user.controller.js:108-110 | the first matching id at or after a position, with nothing matching between that position and the result |
| UserStore.FindByEmailUnique | src/models/users.model.js:18-24 | with unique emails, looking up an account's email finds that account |
| UserStore.DisplayNameNonEmpty | src/models/users.model.js:10-16 | since the username is required, no account in a valid store has an empty display name |
| UserStore.FindOneFrame | src/controllers/user.controller.js:108-110 | lookups depend only on ids, usernames and emails, so updates to other fields never change which account is found |
| UserStore.ApplyPatch | src/controllers/user.controller.js:925-934 | a `$set` gives each listed field its new value, the role being the canonical role of the given string, and leaves every other field, the identity and the session alone |
| UserStore.PatchAll | src/controllers/user.controller.js:993-1013 | an update-many patches the listed accounts only, keeps the set of accounts, and keeps the store valid for the four modelled fields |
| UserStore.RemoveAll | src/controllers/user.controller.js:1005-1006 | a delete-many removes exactly the listed accounts, keeps the others unchanged, and keeps the store valid |
| UserController.GenerateAccessAndRefreshToken | src/controllers/user.controller.js:9-23 | it fails with 500 exactly when the account is missing; on success the stored refresh token is the returned one, freshly signed now, and nothing else changes |
| UserController.LoginUser | src/controllers/user.controller.js:93-148 | succeeds exactly for present username and email, a matching account, and its correct password; otherwise 400 unless both username and email are present, then 404 when no account matches either, 500 for a missing password, 401 for a wrong one; on success one more login, timestamps now, the returned refresh token stored, nothing else changed; failures change nothing |
| UserController.UpdateAccountDetails | src/controllers/user.controller.js:231-252 | succeeds exactly for a present full name and email that no other account holds (or a vanished caller, which changes nothing); otherwise 400 for a missing field, 500 for an email another account holds (the unique index); on success only the caller's full name and email change, and the store stays valid |
| UserController.LogoutUser | src/controllers/user.controller.js:150-173 | always 200; the caller's refresh token is removed and every other field and account is unchanged |
| UserController.IncomingRefreshToken | src/controllers/user.controller.js:176 | a truthy cookie is used whatever the body holds; otherwise the body's token; a token is present exactly when the cookie or the body holds a truthy one |
| UserController.RefreshAccessToken | src/controllers/user.controller.js:175-221 | every failure is 401 and changes nothing; success iff the presented token verifies under the refresh secret, names an existing account, and equals its stored token; the stored token is then replaced by one signed now, and the reply's refresh token is absent |
| UserController.ChangeCurrentPassword | src/controllers/user.controller.js:313-333 | succeeds exactly for two present passwords, an existing caller and the right old password; otherwise 400 for a missing field or a wrong old password, 500 for a vanished caller; on success only the digest changes and it accepts exactly the new password |
| UserController.DeleteUserAccount | src/controllers/user.controller.js:498-524 | succeeds exactly for the right password of an existing caller; otherwise 400 for a missing or wrong password, 500 for a vanished caller; on success exactly the caller's account is removed |
| UserController.ForgotPassword | src/controllers/user.controller.js:527-549 | 200 exactly for a present email some account holds; otherwise 400 without an email and 404 for an unknown one; the collection is never modified |
| UserController.ResetPassword | src/controllers/user.controller.js:580-610 | succeeds exactly for a present token and new password where the token verifies under the access secret and names an existing account; otherwise 400 for missing fields or a malformed token, 500 for an expired token or a missing account; on success only the digest of the token's account changes, to one accepting exactly the new password |
| UserController.VerifyEmail | src/controllers/user.controller.js:613-647 | succeeds exactly for a present token that verifies under the access secret and names an existing account; otherwise 400 for a missing or malformed token, 500 for an expired token or a missing account; on success the account is verified, nothing else changes, and an already verified account is left untouched |
| UserController.ResendEmailVerification | src/controllers/user.controller.js:650-677 | 200 exactly for a present email some account holds; otherwise 400 without an email and 404 for an unknown one; a verification token is generated exactly when the account is still unverified; the collection is never modified |
| UserController.DeactivateAccount | src/controllers/user.controller.js:719-748 | succeeds exactly for the right password of an existing caller; otherwise 400 for a missing or wrong password, 500 for a vanished caller; on success the account is inactive with the given or default reason and date now, and nothing else changes, the refresh token included |
| UserController.ReactivateAccount | src/controllers/user.controller.js:751-784 | succeeds exactly for a present email and password where the email's account is already active or the password is right; an active account is answered 200 unchanged with no password check; otherwise 400 for missing fields or a wrong password, 404 for an unknown email; a real reactivation clears the reason and date and changes nothing else |
| UserController.UpdateUserStatus | src/controllers/user.controller.js:917-943 | succeeds exactly for a present id of an existing account; otherwise 400 without an id, 404 for an unknown one; on success the given flags and the truthy role are set and nothing else changes |
| UserController.StatusPatch | src/controllers/user.controller.js:925-928 | applied to any document, the patch sets each given flag, sets the truthy role string and keeps the role otherwise, and never touches the full name |
| UserController.BulkUserOperations | src/controllers/user.controller.js:983-1024 | 400 without an operation or id array, or for an unknown operation; activate sets only `isActive` to true on each listed account, deactivate sets only `isActive` to false (the deactivation record untouched), update applies `data`, delete removes them, and unlisted accounts are unchanged; the count is the number of listed existing accounts, absent when an update matched none |
| UserController.RegisterUser | src/controllers/user.controller.js:25-91 | 201 exactly when no account shares the username or email, the avatar upload produced a URL, and all four fields are present; otherwise 409 iff an account shares the username or email, then 400 iff the avatar upload produced nothing, then 500 iff a required field is missing or empty; on success the new account gets the next id with the schema defaults, and the store stays valid |
| SessionProperties.LogoutIdempotent | src/controllers/user.controller.js:150-161 | logging out twice is the same as logging out once |
| SessionProperties.LogoutRevokesSession | src/controllers/user.controller.js:150-161 | after logout, every refresh token naming the caller is refused with 401 |
| SessionProperties.LoginLeavesOneSession | src/controllers/user.controller.js:9-23 | after login the returned refresh token is accepted until it expires, and every other token naming the account is refused |
| SessionProperties.RefreshRotationRevokesPresentedToken | src/controllers/user.controller.js:194-204 | once a refresh succeeded, the same token is refused afterwards, provided the clock moved since it was signed |
| SessionProperties.RefreshWithinSameSecondKeepsToken | src/controllers/user.controller.js:194-204 | a refresh within the second its token was signed re-stores an identical token, so nothing changes |
| SessionProperties.DeleteRevokesSession | src/controllers/user.controller.js:512 | a deleted account's refresh tokens are refused |
| SessionProperties.BulkOperationsAndSessions | src/controllers/user.controller.js:999-1006 | a bulk delete revokes the sessions of the deleted accounts, and a bulk deactivation revokes none |
| SessionProperties.RegisterLoginRefreshScenario | src/controllers/user.controller.js:25-221 | a fresh registration can log in and exchange its refresh token once, with no refresh value in the reply; the login's token is refused afterwards |
| SessionProperties.NewAccountIsFound | src/controllers/user.controller.js:42-48 | after a registration that found no clash, looking up the new username or email finds the new account |
| SessionProperties.ChangePasswordThenLogin | src/controllers/user.controller.js:321-328 | after a password change, login with the new password succeeds and with any other one is refused with 401 |
| SessionProperties.ChangePasswordKeepsSession | src/controllers/user.controller.js:327-328 | a password change leaves the stored refresh token as it was |
| SessionProperties.AccessSecretTokensAccepted | src/controllers/user.controller.js:589-621 | unexpired access, reset and verification tokens of an existing account are all accepted by both reset and email verification |
| SessionProperties.PurposeTokenErrors | src/controllers/user.controller.js:604-609 | a refresh token is refused with 400 and an expired reset token with 500 |
| SessionProperties.ResetTokenReusable | src/controllers/user.controller.js:587-603 | the same reset token resets the password again while unexpired |
| SessionProperties.VerifyEmailIdempotent | src/controllers/user.controller.js:629-636 | verifying twice has the effect of verifying once |
| SessionProperties.DeactivateReactivateRoundTrip | src/controllers/user.controller.js:719-784 | deactivation followed by reactivation with the same password restores the account exactly |
| SessionProperties.LifecycleHandlersKeepConsistency | src/models/users.model.js:241-243 | after deactivation the lifecycle fields agree and the account cannot act; after a real reactivation they agree and it can act iff its email is verified |
| SessionProperties.StatusUpdateMayBreakConsistency | src/controllers/user.controller.js:925-926 | the status update can reactivate an account without clearing its deactivation record |
| SessionProperties.DeactivatedAccountCanRefresh | src/controllers/user.controller.js:733-736 | after deactivation the stored refresh token is still accepted |
| SessionProperties.LoginIgnoresIsActive | src/controllers/user.controller.js:104-122 | changing `isActive` leaves a login's reply, status and tokens alike, as it was |
| SessionProperties.RegisterCreatesPlainUser | src/models/users.model.js:52-68 | a registered account is an active, unverified plain user with no logins |
| SessionProperties.StatusUpdateStoresUnlistedRole | src/controllers/user.controller.js:928-934 | the status update stores any truthy role string outside the enum as given, and that role passes neither the admin nor the moderator check |
| SessionProperties.UndefinedCookieShadowsBody | src/controllers/user.controller.js:176-211 | a refresh whose cookie holds the string "undefined" left by the previous refresh is refused with 401 and changes nothing, whatever the body carries |
| SessionProperties.BulkUpdateRoleDecidesChecks | src/controllers/user.controller.js:993-1003 | a bulk update stores the requested role string as given, and the admin, moderator and enum checks read exactly that string back |
| SessionProperties.UpdatedEmailIsFound | src/controllers/user.controller.js:238-246 | after a change of email the account is found by its new address, and its old address finds nobody |

## Left out

- Avatar and cover-image uploads are left out, because they are foreign I/O. This covers
  the uploads inside registration and the avatar and cover update handlers. Registration
  takes the upload's outcome as a parameter. The `TypeError` raised for a multipart
  request with no avatar part is not told apart from "no avatar".
- The aggregation pipelines are left out, because they depend on the database's query
  language. This covers the channel profile, watch history, user statistics, and both
  searches.
- Pagination in the user listing is left out. It relies on string-to-number coercion and
  on floating-point `Math.ceil`. The `accountAge` virtual is left out too, for its
  floating-point division.
- These handlers are outside the modelled set: `getCurrentUser`, `getUserById`, the two
  preference handlers, and `getUserActivity`. They read or write fields no modelled
  handler consults: no username, email, password, session or lifecycle field.
- The following files are not part of this model: `src/middlewares/auth.middleware.js`
  (the JWT middleware), `src/utils/ApiErros.js`, and `src/utils/cloudinary.js`.
  Authenticated handlers take the caller's id. A rethrown `ApiErrors` is taken to have
  the plain error name.
- Application wiring is not modelled: the routes, the app, server start-up and cookie
  options. Handler bodies are modelled directly, as if `src/utils/asyncHandler.js`
  returned the wrapper it builds.
- The schema's `lowercase` and `trim` setters are left out. Usernames and emails are
  taken as already normalised, and lookups match them exactly.
- Database failures and unique-index races are left out. A concurrent writer is left out
  too: every request runs alone. The unique index itself is modelled where an update
  can hit it, in `updateAccountDetails`.
- Real bcrypt and JWT encoding are left out: cost factor, salting, HMAC and base64.
  Missing secret or expiry settings are left out as well; both secrets and both
  lifetimes are taken to be configured.
- Reply bodies are modelled only through their tokens, counts and statuses. The user
  projections without password and refresh token are left out, and so are the cookies
  set and cleared. The one cookie that matters to a later request, the "undefined"
  refresh cookie, is stated as a property of the next refresh.
- UserStore.ApplyPatch: a bulk `update` may `$set` any field, with no validators and no
  pre-save hook. The model covers only `isActive`, `isEmailVerified`, `role` and
  `fullName`, and an absent `data` is an empty patch. The other fields cannot be written
  faithfully in the model: a `password` would be stored unhashed, which a `Hash` cannot
  hold, and a `refreshToken`, `username` or `email` written raw would break the store's
  invariant. So the source does NOT keep `Valid` through a bulk `update`. The
  preservation stated by `UserStore.PatchAll` and `UserController.BulkUserOperations` holds
  only for the four modelled fields.
- UserController.BulkUserOperations: the count assumes every matched document is
  modified, because the timestamps option rewrites `updatedAt`. Updates landing in the
  same millisecond are not modelled.
- UserController.UpdateUserStatus: the target id is assumed to be a well-formed ObjectId.
  A malformed `:userId` makes `findByIdAndUpdate` throw a `CastError`, a 500 that the
  model does not produce; it answers 404 instead.
- UserController.BulkUserOperations: every entry of `userIds` is assumed to be a
  well-formed ObjectId. A malformed entry makes `updateMany` or `deleteMany` throw a
  `CastError`, a 500; the model instead treats it as an id no account has.
- UserStore.FindOne: MongoDB leaves the order of an unsorted query unspecified. This
  includes the `$or` of username and email in `loginUser` and `registerUser`, which
  the query planner may answer through one index scan per clause. The model picks the
  matching account with the least id. When the username and the email match two
  different accounts, the source may pick the other one, so login may check the
  password against a different account than the model does.
- Crypto.HashPassword: bcrypt reads only the first 72 bytes of a password, so a digest
  also accepts any password sharing that prefix. The truncation is left out: the model's
  digest accepts exactly the password it was made from.
- Date handling: the clock is in seconds for both the JWT fields and the Date fields.
  The age computation takes today's calendar date as given, so time zones are left out.

=== FILE: common.dfy ===
/** Shared vocabulary of the model: identifiers, the clock, optional values and
    JavaScript truthiness of request fields. */
module Common {

  /** Seconds on the server clock. jsonwebtoken's `iat`/`exp` and the Date fields
      of an account are read from this one clock. */
  type Time = int

  /** Document ids, handed out in increasing order. Where several documents match
      an unsorted query, the model answers with the least id. */
  type UserId = nat

  /** An optional value: `None` stands for `undefined`/`null` in the source. */
  datatype Option<+T> = None | Some(value: T)

  /** JavaScript truthiness of an optional string: `undefined` and `""` are falsy. */
  predicate Present(o: Option<string>) {
    o.Some? && o.value != ""
  }
}

=== FILE: crypto.dfy ===
/** Abstract stand-ins for the two cryptographic libraries the user model calls:
    bcrypt (password hashing) and jsonwebtoken (signed, expiring claim sets).
    Only the contracts below are relied upon; no real cryptography is modelled. */
module Crypto {
  import opened Common

  // ---------------------------------------------------------------- bcrypt

  /** A bcrypt digest. The salt is drawn at random by `bcrypt.hash`, so callers
      pass it in; the digest remembers the plaintext only so that `Compare` can
      be defined. Nothing but `Compare` looks inside a `Hash`. */
  datatype Hash = Hash(salt: nat, plain: string)

  /** `bcrypt.compare(plain, h)`. */
  predicate Compare(plain: string, h: Hash) {
    h.plain == plain
  }

  /** `bcrypt.hash(plain, 10)` with the random salt made a parameter. The digest
      accepts exactly the password it was made from, whatever the salt. */
  function HashPassword(plain: string, salt: nat): (h: Hash)
    ensures Compare(plain, h)
    ensures forall q :: q != plain ==> !Compare(q, h)
  {
    Hash(salt, plain)
  }

  // ---------------------------------------------------------- jsonwebtoken

  /** The two signing secrets of the deployment: ACCESS_TOKEN_SECRET and
      REFRESH_TOKEN_SECRET. */
  datatype Secret = AccessSecret | RefreshSecret

  /** A JWT payload. Every token this system signs carries `_id`; the other
      members are present only for some token kinds. */
  datatype Claims = Claims(id: UserId, email: Option<string>, username: Option<string>, role: Option<string>)

  /** A token as presented by a client: either one signed by `jwt.sign`, or any
      other string (tampered, truncated, made up). */
  datatype Token =
    | Signed(secret: Secret, claims: Claims, iat: Time, exp: Time)
    | Garbled(text: string)

  /** The three outcomes of `jwt.verify`: the decoded payload, a
      `JsonWebTokenError` (bad structure or signature), or a `TokenExpiredError`. */
  datatype Verdict = Decoded(claims: Claims) | Malformed | Expired

  /** `jwt.sign(claims, secret, { expiresIn: ttl })` at clock time `now`:
      deterministic in its inputs. */
  function Sign(claims: Claims, secret: Secret, now: Time, ttl: nat): (t: Token)
    ensures forall later :: Verify(t, secret, later) == (if later < now + ttl then Decoded(claims) else Expired)
    ensures forall other, later :: other != secret ==> Verify(t, other, later) == Malformed
  {
    Signed(secret, claims, now, now + ttl)
  }

  /** `jwt.verify(t, secret)` at clock time `now`: the signature is checked before
      the expiry, and a token is expired once `now >= exp`. */
  function Verify(t: Token, secret: Secret, now: Time): (v: Verdict)
    ensures t.Garbled? ==> v == Malformed
    ensures v == Malformed <==> t.Garbled? || t.secret != secret
    ensures v == Expired <==> t.Signed? && t.secret == secret && now >= t.exp
    ensures v.Decoded? ==> t.Signed? && v.claims == t.claims && now < t.exp
  {
    match t
    case Garbled(_) => Malformed
    case Signed(s, c, _, exp) =>
      if s != secret then Malformed
      else if now >= exp then Expired
      else Decoded(c)
  }

  /** Two signatures of the same claims under the same secret and lifetime are the
      same token exactly when they were made at the same clock time: re-signing
      later always yields a different value. */
  lemma SignDistinguishesTime(c: Claims, s: Secret, t0: Time, t1: Time, ttl: nat)
    ensures Sign(c, s, t0, ttl) == Sign(c, s, t1, ttl) <==> t0 == t1
  {
  }
}

=== FILE: session_properties.dfy ===
/** Properties that relate several requests: the single-session protocol
    (issue, rotate, revoke), password changes, the account lifecycle, purpose
    tokens, and the places where the handlers do less than the account model
    suggests (no `isActive` gate, no role validation on admin updates). */
module SessionProperties {
  import opened Common
  import opened Crypto
  import opened UserModel
  import opened UserStore
  import opened UserController

  /** The account a presented refresh token names, when it verifies at `now`. */
  predicate NamesAccount(cookie: Option<Token>, body: Option<Token>, now: Time, id: UserId) {
    var t := IncomingRefreshToken(cookie, body);
    && TokenPresent(t)
    && Verify(t.value, RefreshSecret, now).Decoded?
    && Verify(t.value, RefreshSecret, now).claims.id == id
  }

  // ------------------------------------------------------------- sessions

  /** Logging out twice is logging out once. */
  lemma LogoutIdempotent(s: Store, caller: UserId)
    ensures LogoutUser(LogoutUser(s, caller).store, caller) == LogoutUser(s, caller)
  {
  }

  /** After logout no refresh token of the caller's is accepted any more. */
  lemma LogoutRevokesSession(cfg: Config, s: Store, caller: UserId, now: Time, cookie: Option<Token>, body: Option<Token>)
    requires NamesAccount(cookie, body, now, caller)
    ensures RefreshAccessToken(cfg, LogoutUser(s, caller).store, now, cookie, body).reply == Failure(UNAUTHORIZED)
  {
  }

  /** A login leaves exactly one live refresh token for the account: the one it
      returned is accepted until it expires, and every other token naming the
      account is refused. */
  lemma LoginLeavesOneSession(cfg: Config, s: Store, t0: Time, username: Option<string>, email: Option<string>,
                              password: Option<string>, t1: Time, cookie: Option<Token>, body: Option<Token>)
    requires LoginUser(cfg, s, t0, username, email, password).reply.Success?
    ensures
      var login := LoginUser(cfg, s, t0, username, email, password);
      var id := LoginTarget(s, username, email).value;
      && (t1 < t0 + cfg.refreshTtl ==>
            RefreshAccessToken(cfg, login.store, t1, None, Some(login.reply.value.refreshToken)).reply.Success?)
      && (NamesAccount(cookie, body, t1, id) && IncomingRefreshToken(cookie, body) != Some(login.reply.value.refreshToken) ==>
            RefreshAccessToken(cfg, login.store, t1, cookie, body).reply == Failure(UNAUTHORIZED))
  {
  }

  /** Rotation: once a refresh has succeeded, presenting the same token again is
      refused, provided the clock moved on since that token was signed. */
  lemma RefreshRotationRevokesPresentedToken(cfg: Config, s: Store, t0: Time, t1: Time, cookie: Option<Token>, body: Option<Token>)
    requires RefreshAccessToken(cfg, s, t0, cookie, body).reply.Success?
    requires IncomingRefreshToken(cookie, body).value.iat != t0
    ensures RefreshAccessToken(cfg, RefreshAccessToken(cfg, s, t0, cookie, body).store, t1, cookie, body).reply == Failure(UNAUTHORIZED)
  {
  }

  /** Rotation within the same clock second re-signs an identical token, so the
      presented one stays the stored one. */
  lemma RefreshWithinSameSecondKeepsToken(cfg: Config, s: Store, t0: Time, cookie: Option<Token>, body: Option<Token>)
    requires Valid(s)
    requires RefreshAccessToken(cfg, s, t0, cookie, body).reply.Success?
    requires IncomingRefreshToken(cookie, body).value.iat == t0
    requires IncomingRefreshToken(cookie, body).value.exp == t0 + cfg.refreshTtl
    ensures RefreshAccessToken(cfg, s, t0, cookie, body).store == s
  {
  }

  /** A deleted account can no longer refresh. */
  lemma DeleteRevokesSession(cfg: Config, s: Store, caller: UserId, password: Option<string>, now: Time, cookie: Option<Token>, body: Option<Token>)
    requires DeleteUserAccount(s, caller, password).reply.Success?
    requires NamesAccount(cookie, body, now, caller)
    ensures RefreshAccessToken(cfg, DeleteUserAccount(s, caller, password).store, now, cookie, body).reply == Failure(UNAUTHORIZED)
  {
  }

  /** A bulk delete ends the sessions of every deleted account, while a bulk
      deactivation leaves them all in place. */
  lemma BulkOperationsAndSessions(cfg: Config, s: Store, userIds: seq<UserId>, data: Patch, now: Time,
                                  cookie: Option<Token>, body: Option<Token>, id: UserId)
    requires id in userIds && NamesAccount(cookie, body, now, id)
    ensures
      var d := BulkUserOperations(s, Some("delete"), Some(userIds), data);
      RefreshAccessToken(cfg, d.store, now, cookie, body).reply == Failure(UNAUTHORIZED)
    ensures
      var d := BulkUserOperations(s, Some("deactivate"), Some(userIds), data);
      RefreshAccessToken(cfg, d.store, now, cookie, body).reply.Success? <==> RefreshAccessToken(cfg, s, now, cookie, body).reply.Success?
  {
  }

  /** A successful refresh sets the `refreshToken` cookie to `newRefreshToken`,
      which is `undefined`, and the cookie then holds the string "undefined". That
      string is truthy, so it is the token the next refresh reads, whatever the
      body carries, and it never verifies. */
  lemma UndefinedCookieShadowsBody(cfg: Config, s: Store, now: Time, body: Option<Token>)
    ensures RefreshAccessToken(cfg, s, now, Some(Garbled("undefined")), body) == Step(s, Failure(UNAUTHORIZED))
  {
  }

  /** The registration-login-refresh walk-through: a new account can log in, the
      returned refresh token can be exchanged once (the reply carries no new
      refresh value), and afterwards the first refresh token is refused. */
  lemma RegisterLoginRefreshScenario(cfg: Config, s: Store, salt: nat, t0: Time, t1: Time, t2: Time, t3: Time,
                                     fullName: string, email: string, username: string, password: string, avatar: string)
    requires Valid(s)
    requires fullName != "" && email != "" && username != "" && password != ""
    requires RegistrationClash(s, Some(username), Some(email)).None?
    requires t1 < t2 < t1 + cfg.refreshTtl
    ensures
      var reg := RegisterUser(s, t0, salt, Some(fullName), Some(email), Some(username), Some(password), Some(avatar));
      && reg.reply.Success?
      && var login := LoginUser(cfg, reg.store, t1, Some(username), Some(email), Some(password));
      && login.reply.Success?
      && var refresh := RefreshAccessToken(cfg, login.store, t2, None, Some(login.reply.value.refreshToken));
      && refresh.reply.Success?
      && refresh.reply.value.refreshToken.None?
      && RefreshAccessToken(cfg, refresh.store, t3, None, Some(login.reply.value.refreshToken)).reply == Failure(UNAUTHORIZED)
  {
    var reg := RegisterUser(s, t0, salt, Some(fullName), Some(email), Some(username), Some(password), Some(avatar));
    var id := s.nextId;
    var s1 := reg.store;
    NewAccountIsFound(s, s1, id, username, email);
    var login := LoginUser(cfg, s1, t1, Some(username), Some(email), Some(password));
    var tok := login.reply.value.refreshToken;
    LoginLeavesOneSession(cfg, s1, t1, Some(username), Some(email), Some(password), t2, None, None);
    var refresh := RefreshAccessToken(cfg, login.store, t2, None, Some(tok));
    RefreshRotationRevokesPresentedToken(cfg, login.store, t2, t3, None, Some(tok));
  }

  /** After a registration that found no clash, the lookup by the new username or
      email finds the new account. */
  lemma NewAccountIsFound(s: Store, s1: Store, id: UserId, username: string, email: string)
    requires Valid(s) && id == s.nextId
    requires FindOne(s, UsernameOrEmail(Some(username), Some(email))).None?
    requires s1.nextId == s.nextId + 1
    requires id in s1.accounts && s1.accounts == s.accounts[id := s1.accounts[id]]
    requires s1.accounts[id].username == username
    ensures FindOne(s1, UsernameOrEmail(Some(username), Some(email))) == Some(id)
  {
  }

  // ------------------------------------------------------------ passwords

  /** After a password change, logging in with the new password succeeds and
      with any other password is refused with 401. */
  lemma ChangePasswordThenLogin(cfg: Config, s: Store, caller: UserId, oldPassword: Option<string>, newPassword: Option<string>,
                                salt: nat, now: Time, username: Option<string>, email: Option<string>, other: string)
    requires ChangeCurrentPassword(s, caller, oldPassword, newPassword, salt).reply.Success?
    requires Present(username) && Present(email)
    requires LoginTarget(s, username, email) == Some(caller)
    requires other != newPassword.value
    ensures
      var s1 := ChangeCurrentPassword(s, caller, oldPassword, newPassword, salt).store;
      && LoginUser(cfg, s1, now, username, email, newPassword).reply.Success?
      && LoginUser(cfg, s1, now, username, email, Some(other)).reply == Failure(UNAUTHORIZED)
  {
  }

  /** A password change keeps the current session alive. */
  lemma ChangePasswordKeepsSession(s: Store, caller: UserId, oldPassword: Option<string>, newPassword: Option<string>, salt: nat)
    requires ChangeCurrentPassword(s, caller, oldPassword, newPassword, salt).reply.Success?
    ensures ChangeCurrentPassword(s, caller, oldPassword, newPassword, salt).store.accounts[caller].refreshToken
            == s.accounts[caller].refreshToken
  {
  }

  // -------------------------------------------------------- purpose tokens

  /** Reset and verification tokens share the access secret, so an unexpired
      access, reset or verification token of an existing account is accepted by
      both `resetPassword` and `verifyEmail`. */
  lemma AccessSecretTokensAccepted(cfg: Config, s: Store, id: UserId, t0: Time, now: Time, newPassword: string, salt: nat)
    requires id in s.accounts && newPassword != ""
    ensures now < t0 + cfg.accessTtl ==>
      var t := GenerateAccessToken(cfg, id, s.accounts[id], t0);
      ResetPassword(s, now, Some(t), Some(newPassword), salt).reply.Success? && VerifyEmail(s, now, Some(t)).reply.Success?
    ensures now < t0 + RESET_TTL ==>
      var t := GeneratePasswordResetToken(id, s.accounts[id], t0);
      ResetPassword(s, now, Some(t), Some(newPassword), salt).reply.Success? && VerifyEmail(s, now, Some(t)).reply.Success?
    ensures now < t0 + VERIFICATION_TTL ==>
      var t := GenerateEmailVerificationToken(id, s.accounts[id], t0);
      ResetPassword(s, now, Some(t), Some(newPassword), salt).reply.Success? && VerifyEmail(s, now, Some(t)).reply.Success?
  {
  }

  /** A refresh token is refused by the purpose-token endpoints with 400, and an
      expired reset token with 500. */
  lemma PurposeTokenErrors(cfg: Config, s: Store, id: UserId, t0: Time, now: Time, newPassword: string, salt: nat)
    requires id in s.accounts && newPassword != ""
    ensures ResetPassword(s, now, Some(GenerateRefreshToken(cfg, id, t0)), Some(newPassword), salt).reply == Failure(BAD_REQUEST)
    ensures VerifyEmail(s, now, Some(GenerateRefreshToken(cfg, id, t0))).reply == Failure(BAD_REQUEST)
    ensures now >= t0 + RESET_TTL ==>
      ResetPassword(s, now, Some(GeneratePasswordResetToken(id, s.accounts[id], t0)), Some(newPassword), salt).reply == Failure(INTERNAL_ERROR)
  {
  }

  /** Reset tokens are not single-use: the same token resets the password again
      while it is unexpired. */
  lemma ResetTokenReusable(s: Store, id: UserId, t0: Time, now1: Time, now2: Time, p1: string, p2: string, salt1: nat, salt2: nat)
    requires id in s.accounts && p1 != "" && p2 != ""
    requires now1 < t0 + RESET_TTL && now2 < t0 + RESET_TTL
    ensures
      var t := GeneratePasswordResetToken(id, s.accounts[id], t0);
      var first := ResetPassword(s, now1, Some(t), Some(p1), salt1);
      && first.reply.Success?
      && ResetPassword(first.store, now2, Some(t), Some(p2), salt2).reply.Success?
  {
  }

  /** Verifying an email twice has the effect of verifying it once. */
  lemma VerifyEmailIdempotent(s: Store, now: Time, token: Option<Token>)
    requires VerifyEmail(s, now, token).reply.Success?
    ensures VerifyEmail(VerifyEmail(s, now, token).store, now, token) == Step(VerifyEmail(s, now, token).store, Success(OK, ()))
  {
  }

  // ------------------------------------------------------------- lifecycle

  /** Whether the lifecycle fields agree: an active account has no deactivation
      record, an inactive one has both reason and date. */
  predicate LifecycleConsistent(a: Account) {
    if a.isActive then a.deactivationReason.None? && a.deactivatedAt.None?
    else a.deactivationReason.Some? && a.deactivatedAt.Some?
  }

  /** Deactivation followed by reactivation with the same password restores the
      account exactly, session included. */
  lemma DeactivateReactivateRoundTrip(s: Store, now: Time, caller: UserId, password: string, reason: Option<string>)
    requires Valid(s)
    requires DeactivateAccount(s, now, caller, Some(password), reason).reply.Success?
    requires s.accounts[caller].isActive && LifecycleConsistent(s.accounts[caller])
    ensures
      var s1 := DeactivateAccount(s, now, caller, Some(password), reason).store;
      ReactivateAccount(s1, Some(s.accounts[caller].email), Some(password)) == Step(s, Success(OK, ()))
  {
  }

  /** Deactivation and reactivation leave the account's lifecycle fields in
      agreement, and deactivation removes the right to act. */
  lemma LifecycleHandlersKeepConsistency(s: Store, now: Time, caller: UserId, password: Option<string>, reason: Option<string>, email: Option<string>)
    ensures
      var d := DeactivateAccount(s, now, caller, password, reason);
      d.reply.Success? ==> LifecycleConsistent(d.store.accounts[caller]) && !CanPerformAction(d.store.accounts[caller])
    ensures
      var r := ReactivateAccount(s, email, password);
      r.reply.Success? && !s.accounts[FindOne(s, EmailIs(email.value)).value].isActive ==>
        var id := FindOne(s, EmailIs(email.value)).value;
        && LifecycleConsistent(r.store.accounts[id])
        && (CanPerformAction(r.store.accounts[id]) <==> s.accounts[id].isEmailVerified)
  {
  }

  /** The status update can set `isActive` without touching the
      deactivation record, so it does not keep the lifecycle fields in agreement. */
  lemma StatusUpdateMayBreakConsistency(s: Store, id: UserId)
    requires id in s.accounts
    requires !s.accounts[id].isActive && LifecycleConsistent(s.accounts[id])
    ensures
      var r := UpdateUserStatus(s, Some(id), Some(true), None, None);
      r.reply.Success? && !LifecycleConsistent(r.store.accounts[id])
  {
  }

  /** Deactivation does not end the session: the stored refresh token is still
      accepted afterwards. */
  lemma DeactivatedAccountCanRefresh(cfg: Config, s: Store, now: Time, caller: UserId, password: Option<string>,
                                     reason: Option<string>, later: Time)
    requires DeactivateAccount(s, now, caller, password, reason).reply.Success?
    requires s.accounts[caller].refreshToken.Some?
    requires Verify(s.accounts[caller].refreshToken.value, RefreshSecret, later) == Decoded(RefreshClaims(caller))
    ensures
      var s1 := DeactivateAccount(s, now, caller, password, reason).store;
      RefreshAccessToken(cfg, s1, later, None, s.accounts[caller].refreshToken).reply.Success?
  {
  }

  /** Login never consults `isActive`: flipping it leaves the login reply, status
      and tokens alike, as it was. */
  lemma LoginIgnoresIsActive(cfg: Config, s: Store, now: Time, username: Option<string>, email: Option<string>,
                             password: Option<string>, id: UserId, flag: bool)
    requires id in s.accounts
    ensures
      var s1 := Put(s, id, s.accounts[id].(isActive := flag));
      LoginUser(cfg, s1, now, username, email, password).reply == LoginUser(cfg, s, now, username, email, password).reply
  {
    var s1 := Put(s, id, s.accounts[id].(isActive := flag));
    FindOneFrame(s, s1, UsernameOrEmail(username, email));
  }

  // ------------------------------------------------------------------ roles

  /** Registration creates plain users inside the role enum. */
  lemma RegisterCreatesPlainUser(s: Store, now: Time, salt: nat, fullName: Option<string>, email: Option<string>,
                                 username: Option<string>, password: Option<string>, avatar: Option<string>)
    ensures
      var r := RegisterUser(s, now, salt, fullName, email, username, password, avatar);
      r.reply.Success? ==>
        var a := r.store.accounts[r.reply.value];
        a.role == UserRole && InRoleEnum(a.role) && !CanPerformAction(a) && a.isActive && a.loginCount == 0
  {
  }

  /** The status update stores any truthy role string outside the enum as given,
      and such a role passes neither role check. */
  lemma StatusUpdateStoresUnlistedRole(s: Store, id: UserId, role: string)
    requires id in s.accounts
    requires role != "" && ParseRole(role).UnlistedRole?
    ensures
      var r := UpdateUserStatus(s, Some(id), None, None, Some(role));
      && r.reply.Success?
      && RoleName(r.store.accounts[id].role) == role
      && !InRoleEnum(r.store.accounts[id].role)
      && !IsAdmin(r.store.accounts[id]) && !IsModerator(r.store.accounts[id])
  {
  }

  /** A bulk `update` stores the requested role string, and the role checks read
      that string back: naming "admin" makes an administrator. */
  lemma BulkUpdateRoleDecidesChecks(s: Store, id: UserId, name: string)
    requires id in s.accounts
    ensures
      var r := BulkUserOperations(s, Some("update"), Some([id]), Patch(None, None, Some(name), None));
      && r.reply.Success?
      && RoleName(r.store.accounts[id].role) == name
      && (IsAdmin(r.store.accounts[id]) <==> name == "admin")
      && (IsModerator(r.store.accounts[id]) <==> name == "admin" || name == "moderator")
      && (InRoleEnum(r.store.accounts[id].role) <==> name == "user" || name == "admin" || name == "moderator")
  {
  }

  /** After a successful change of email the account is looked up by its new
      address, and its old address (when it differs) finds nobody. */
  lemma UpdatedEmailIsFound(s: Store, caller: UserId, fullName: string, email: string)
    requires Valid(s) && caller in s.accounts
    requires UpdateAccountDetails(s, caller, Some(fullName), Some(email)).reply.Success?
    ensures
      var s1 := UpdateAccountDetails(s, caller, Some(fullName), Some(email)).store;
      && FindOne(s1, EmailIs(email)) == Some(caller)
      && (s.accounts[caller].email != email ==> FindOne(s1, EmailIs(s.accounts[caller].email)).None?)
  {
  }
}

=== FILE: user_controller.dfy ===
/** The user controller's authentication and account-lifecycle handlers. Each
    handler is a pure function from the collection, the clock and the request
    fields to the new collection and the reply; a thrown `ApiErrors(code, …)`
    (or any other exception, which surfaces as 500) becomes `Failure(code)`.
    Handlers behind the JWT middleware receive the authenticated caller's id. */
module UserController {
  import opened Common
  import opened Crypto
  import opened UserModel
  import opened UserStore

  const OK: int := 200
  const CREATED: int := 201
  const BAD_REQUEST: int := 400
  const UNAUTHORIZED: int := 401
  const NOT_FOUND: int := 404
  const CONFLICT: int := 409
  const INTERNAL_ERROR: int := 500

  /** The reply to a request: a success status with its payload, or the status of
      the error the handler threw. */
  datatype Outcome<T> = Success(status: int, value: T) | Failure(code: int)

  /** The collection after a request, and the reply. */
  datatype Step<T> = Step(store: Store, reply: Outcome<T>)

  /** `{accessToken, refreshToken}` as returned by the token helper. */
  datatype TokenPair = TokenPair(accessToken: Token, refreshToken: Token)

  /** The body of a refresh reply. */
  datatype RefreshReply = RefreshReply(accessToken: Token, refreshToken: Option<Token>)

  /** The body of a bulk-operation reply. */
  datatype BulkReply = BulkReply(modifiedCount: Option<nat>, operation: string)

  /** The reason stored when deactivation is requested without one. */
  const DEFAULT_DEACTIVATION_REASON: string := "User requested deactivation"

  /** JavaScript truthiness of a presented token: absent and `""` are falsy. */
  predicate TokenPresent(t: Option<Token>) {
    t.Some? && t.value != Garbled("")
  }

  // ------------------------------------------------------------- sessions

  /** `generateAccessAndRefreshToken(userId)`: signs a fresh pair and stores the
      refresh half on the account, overwriting whatever was stored; a missing
      account makes the helper fail with 500. */
  function GenerateAccessAndRefreshToken(cfg: Config, s: Store, now: Time, id: UserId): (r: Step<TokenPair>)
    ensures r.reply.Failure? <==> id !in s.accounts
    ensures r.reply.Failure? ==> r.reply.code == INTERNAL_ERROR && r.store == s
    ensures r.reply.Success? ==>
      && r.reply.status == OK
      && ChangesOnly(s, r.store, id)
      && r.store.accounts[id].refreshToken == Some(r.reply.value.refreshToken)
      && r.store.accounts[id].(refreshToken := s.accounts[id].refreshToken) == s.accounts[id]
      && r.reply.value.refreshToken == GenerateRefreshToken(cfg, id, now)
      && r.reply.value.accessToken == GenerateAccessToken(cfg, id, s.accounts[id], now)
    ensures Valid(s) ==> Valid(r.store)
  {
    if id !in s.accounts then Step(s, Failure(INTERNAL_ERROR))
    else
      var user := s.accounts[id];
      var accessToken := GenerateAccessToken(cfg, id, user, now);
      var refreshToken := GenerateRefreshToken(cfg, id, now);
      var saved := PreSave(user.(refreshToken := Some(refreshToken)), None);
      Step(Put(s, id, saved), Success(OK, TokenPair(accessToken, refreshToken)))
  }

  /** The account `loginUser` looks up: the first one whose username or email
      matches. */
  function LoginTarget(s: Store, username: Option<string>, email: Option<string>): Option<UserId> {
    FindOne(s, UsernameOrEmail(username, email))
  }

  /** `loginUser`. Both username and email must be given (400); the first account
      matching either is used (404 if none); a missing password makes bcrypt
      reject (500), a wrong one is 401. On success a new session is issued, the
      login statistics are updated, and `isActive` is never consulted. */
  function LoginUser(cfg: Config, s: Store, now: Time, username: Option<string>, email: Option<string>, password: Option<string>): (r: Step<TokenPair>)
    ensures r.reply.Failure? ==> r.store == s
    ensures r.reply == Failure(BAD_REQUEST) <==> !Present(username) || !Present(email)
    ensures r.reply == Failure(NOT_FOUND) <==>
      Present(username) && Present(email) && LoginTarget(s, username, email).None?
    ensures r.reply == Failure(INTERNAL_ERROR) <==>
      Present(username) && Present(email) && LoginTarget(s, username, email).Some? && password.None?
    ensures r.reply == Failure(UNAUTHORIZED) <==>
      && Present(username) && Present(email) && LoginTarget(s, username, email).Some? && password.Some?
      && !IsPasswordCorrect(s.accounts[LoginTarget(s, username, email).value], password.value)
    ensures r.reply.Success? <==>
      && Present(username) && Present(email) && LoginTarget(s, username, email).Some? && password.Some?
      && IsPasswordCorrect(s.accounts[LoginTarget(s, username, email).value], password.value)
    ensures r.reply.Success? ==>
      && r.reply.status == OK
      && LoginTarget(s, username, email).Some?
      && var id := LoginTarget(s, username, email).value;
      && ChangesOnly(s, r.store, id)
      && password.Some? && IsPasswordCorrect(s.accounts[id], password.value)
      && r.store.accounts[id].loginCount == s.accounts[id].loginCount + 1
      && r.store.accounts[id].lastLoginAt == Some(now)
      && r.store.accounts[id].lastActivityAt == now
      && r.store.accounts[id].refreshToken == Some(r.reply.value.refreshToken)
      && r.reply.value.refreshToken == GenerateRefreshToken(cfg, id, now)
      && r.reply.value.accessToken == GenerateAccessToken(cfg, id, s.accounts[id], now)
      && r.store.accounts[id].(refreshToken := s.accounts[id].refreshToken, loginCount := s.accounts[id].loginCount,
                               lastLoginAt := s.accounts[id].lastLoginAt, lastActivityAt := s.accounts[id].lastActivityAt)
         == s.accounts[id]
    ensures Valid(s) ==> Valid(r.store)
  {
    if !Present(username) || !Present(email) then Step(s, Failure(BAD_REQUEST))
    else match LoginTarget(s, username, email)
      case None => Step(s, Failure(NOT_FOUND))
      case Some(id) =>
        var user := s.accounts[id];
        if password.None? then Step(s, Failure(INTERNAL_ERROR))
        else if !IsPasswordCorrect(user, password.value) then Step(s, Failure(UNAUTHORIZED))
        else
          var issued := GenerateAccessAndRefreshToken(cfg, s, now, id);
          // The helper cannot fail here: the account was just found.
          var pair := issued.reply.value;
          // `user` was loaded before the tokens were stored; saving it writes only
          // the paths `updateLoginStats` modified, so the new refresh token stays.
          var stats := UpdateLoginStats(user, now);
          var current := issued.store.accounts[id];
          var saved := current.(loginCount := stats.loginCount, lastLoginAt := stats.lastLoginAt, lastActivityAt := stats.lastActivityAt);
          Step(Put(issued.store, id, saved), Success(OK, pair))
  }

  /** `logoutUser`: `$unset` of the caller's refresh token. The update of an
      account that no longer exists matches nothing and is not checked, so the
      reply is always 200. */
  function LogoutUser(s: Store, caller: UserId): (r: Step<()>)
    ensures r.reply == Success(OK, ())
    ensures caller !in s.accounts ==> r.store == s
    ensures caller in s.accounts ==>
      && ChangesOnly(s, r.store, caller)
      && r.store.accounts[caller].refreshToken.None?
      && r.store.accounts[caller].(refreshToken := s.accounts[caller].refreshToken) == s.accounts[caller]
    ensures Valid(s) ==> Valid(r.store)
  {
    if caller !in s.accounts then Step(s, Success(OK, ()))
    else Step(Put(s, caller, s.accounts[caller].(refreshToken := None)), Success(OK, ()))
  }

  /** The refresh token from the cookie, or from the body when the cookie holds
      no truthy value. */
  function IncomingRefreshToken(cookie: Option<Token>, body: Option<Token>): (t: Option<Token>)
    ensures TokenPresent(t) <==> TokenPresent(cookie) || TokenPresent(body)
    ensures TokenPresent(cookie) ==> t == cookie
    ensures TokenPresent(t) && !TokenPresent(cookie) ==> t == body
  {
    if TokenPresent(cookie) then cookie else body
  }

  /** `refreshAccessToken`. The presented token must verify under the refresh
      secret, name an existing account, and equal the token stored on it; every
      failure, inside the `try` or before it, is a 401. On success the stored
      token is replaced by a freshly signed one. The reply's refresh token is
      `undefined`: the handler destructures `newRefreshToken`, a key the helper's
      result does not have. */
  function RefreshAccessToken(cfg: Config, s: Store, now: Time, cookie: Option<Token>, body: Option<Token>): (r: Step<RefreshReply>)
    ensures r.reply.Failure? ==> r.reply.code == UNAUTHORIZED && r.store == s
    ensures r.reply.Success? <==>
      && var t := IncomingRefreshToken(cookie, body);
      && TokenPresent(t)
      && Verify(t.value, RefreshSecret, now).Decoded?
      && Verify(t.value, RefreshSecret, now).claims.id in s.accounts
      && s.accounts[Verify(t.value, RefreshSecret, now).claims.id].refreshToken == t
    ensures r.reply.Success? ==>
      && var id := Verify(IncomingRefreshToken(cookie, body).value, RefreshSecret, now).claims.id;
      && r.reply.status == OK
      && r.reply.value.refreshToken.None?
      && r.reply.value.accessToken == GenerateAccessToken(cfg, id, s.accounts[id], now)
      && ChangesOnly(s, r.store, id)
      && r.store.accounts[id] == s.accounts[id].(refreshToken := Some(GenerateRefreshToken(cfg, id, now)))
    ensures Valid(s) ==> Valid(r.store)
  {
    var incoming := IncomingRefreshToken(cookie, body);
    if !TokenPresent(incoming) then Step(s, Failure(UNAUTHORIZED))
    else match Verify(incoming.value, RefreshSecret, now)
      case Malformed => Step(s, Failure(UNAUTHORIZED))
      case Expired => Step(s, Failure(UNAUTHORIZED))
      case Decoded(claims) =>
        if claims.id !in s.accounts then Step(s, Failure(UNAUTHORIZED))
        else if incoming != s.accounts[claims.id].refreshToken then Step(s, Failure(UNAUTHORIZED))
        else
          var issued := GenerateAccessAndRefreshToken(cfg, s, now, claims.id);
          var pair := issued.reply.value;
          Step(issued.store, Success(OK, RefreshReply(pair.accessToken, None)))
  }

  // ------------------------------------------------------- account details

  /** `updateAccountDetails`: full name and email required (400). The update of
      an account that no longer exists matches nothing and answers 200. The
      unique index on `email` rejects an address another account holds, a
      duplicate-key error (500); otherwise both fields are set and nothing else
      changes. */
  function UpdateAccountDetails(s: Store, caller: UserId, fullName: Option<string>, email: Option<string>): (r: Step<()>)
    ensures r.reply.Failure? ==> r.store == s
    ensures r.reply == Failure(BAD_REQUEST) <==> !Present(fullName) || !Present(email)
    ensures r.reply == Failure(INTERNAL_ERROR) <==>
      && Present(fullName) && Present(email) && caller in s.accounts
      && exists k :: k in s.accounts && k != caller && s.accounts[k].email == email.value
    ensures r.reply.Success? <==>
      && Present(fullName) && Present(email)
      && (caller in s.accounts ==> forall k :: k in s.accounts && k != caller ==> s.accounts[k].email != email.value)
    ensures r.reply.Success? ==> r.reply.status == OK
    ensures r.reply.Success? && caller !in s.accounts ==> r.store == s
    ensures r.reply.Success? && caller in s.accounts ==>
      && ChangesOnly(s, r.store, caller)
      && r.store.accounts[caller].fullName == fullName.value
      && r.store.accounts[caller].email == email.value
      && r.store.accounts[caller].(fullName := s.accounts[caller].fullName, email := s.accounts[caller].email) == s.accounts[caller]
    ensures Valid(s) ==> Valid(r.store)
  {
    if !Present(fullName) || !Present(email) then Step(s, Failure(BAD_REQUEST))
    else if caller !in s.accounts then Step(s, Success(OK, ()))
    else if exists k :: k in s.accounts && k != caller && s.accounts[k].email == email.value then Step(s, Failure(INTERNAL_ERROR))
    else Step(Put(s, caller, s.accounts[caller].(fullName := fullName.value, email := email.value)), Success(OK, ()))
  }

  // ------------------------------------------------------------ passwords

  /** `changeCurrentPassword`: both passwords required (400), the caller's account
      must still exist (else a TypeError, 500), the old password must match (400).
      Only the password digest changes; the session is left alone. */
  function ChangeCurrentPassword(s: Store, caller: UserId, oldPassword: Option<string>, newPassword: Option<string>, salt: nat): (r: Step<()>)
    ensures r.reply.Failure? ==> r.store == s
    ensures r.reply == Failure(BAD_REQUEST) <==>
      || !Present(oldPassword) || !Present(newPassword)
      || (caller in s.accounts && !IsPasswordCorrect(s.accounts[caller], oldPassword.value))
    ensures r.reply == Failure(INTERNAL_ERROR) <==>
      Present(oldPassword) && Present(newPassword) && caller !in s.accounts
    ensures r.reply.Success? <==>
      && Present(oldPassword) && Present(newPassword) && caller in s.accounts
      && IsPasswordCorrect(s.accounts[caller], oldPassword.value)
    ensures r.reply.Success? ==>
      && r.reply.status == OK
      && ChangesOnly(s, r.store, caller)
      && r.store.accounts[caller].(passwordHash := s.accounts[caller].passwordHash) == s.accounts[caller]
      && IsPasswordCorrect(r.store.accounts[caller], newPassword.value)
      && (forall q :: q != newPassword.value ==> !IsPasswordCorrect(r.store.accounts[caller], q))
    ensures Valid(s) ==> Valid(r.store)
  {
    if !Present(oldPassword) || !Present(newPassword) then Step(s, Failure(BAD_REQUEST))
    else if caller !in s.accounts then Step(s, Failure(INTERNAL_ERROR))
    else
      var user := s.accounts[caller];
      if !IsPasswordCorrect(user, oldPassword.value) then Step(s, Failure(BAD_REQUEST))
      else Step(Put(s, caller, PreSave(user, Some(PendingPassword(newPassword.value, salt)))), Success(OK, ()))
  }

  /** `forgotPassword`: the email must be given (400) and belong to an account
      (404). A reset token is generated and discarded, and the save changes
      nothing, so the collection is never modified. */
  function ForgotPassword(s: Store, email: Option<string>): (r: Step<()>)
    ensures r.store == s
    ensures r.reply == Failure(BAD_REQUEST) <==> !Present(email)
    ensures r.reply == Failure(NOT_FOUND) <==> Present(email) && FindOne(s, EmailIs(email.value)).None?
    ensures r.reply.Success? <==> Present(email) && FindOne(s, EmailIs(email.value)).Some?
    ensures r.reply.Success? ==> r.reply.status == OK
  {
    if !Present(email) then Step(s, Failure(BAD_REQUEST))
    else if FindOne(s, EmailIs(email.value)).None? then Step(s, Failure(NOT_FOUND))
    else Step(s, Success(OK, ()))
  }

  /** `resetPassword`: token and new password required (400). The token is
      checked against the ACCESS secret: a `JsonWebTokenError` is 400, while an
      expired token and a missing account (whose 400 is rethrown by the `catch`
      under another name) are 500. */
  function ResetPassword(s: Store, now: Time, token: Option<Token>, newPassword: Option<string>, salt: nat): (r: Step<()>)
    ensures r.reply.Failure? ==> r.store == s
    ensures r.reply == Failure(BAD_REQUEST) <==>
      !TokenPresent(token) || !Present(newPassword) || Verify(token.value, AccessSecret, now).Malformed?
    ensures r.reply == Failure(INTERNAL_ERROR) <==>
      && TokenPresent(token) && Present(newPassword)
      && (|| Verify(token.value, AccessSecret, now).Expired?
          || (Verify(token.value, AccessSecret, now).Decoded? && Verify(token.value, AccessSecret, now).claims.id !in s.accounts))
    ensures r.reply.Success? <==>
      && TokenPresent(token) && Present(newPassword)
      && Verify(token.value, AccessSecret, now).Decoded? && Verify(token.value, AccessSecret, now).claims.id in s.accounts
    ensures r.reply.Success? ==>
      && r.reply.status == OK
      && var id := Verify(token.value, AccessSecret, now).claims.id;
      && ChangesOnly(s, r.store, id)
      && r.store.accounts[id].(passwordHash := s.accounts[id].passwordHash) == s.accounts[id]
      && IsPasswordCorrect(r.store.accounts[id], newPassword.value)
      && (forall q :: q != newPassword.value ==> !IsPasswordCorrect(r.store.accounts[id], q))
    ensures Valid(s) ==> Valid(r.store)
  {
    if !TokenPresent(token) || !Present(newPassword) then Step(s, Failure(BAD_REQUEST))
    else match Verify(token.value, AccessSecret, now)
      case Malformed => Step(s, Failure(BAD_REQUEST))
      case Expired => Step(s, Failure(INTERNAL_ERROR))
      case Decoded(claims) =>
        if claims.id !in s.accounts then Step(s, Failure(INTERNAL_ERROR))
        else Step(Put(s, claims.id, PreSave(s.accounts[claims.id], Some(PendingPassword(newPassword.value, salt)))), Success(OK, ()))
  }

  // ---------------------------------------------------- email verification

  /** `verifyEmail`: the same token checks and error mapping as `resetPassword`;
      an already verified account is left untouched. */
  function VerifyEmail(s: Store, now: Time, token: Option<Token>): (r: Step<()>)
    ensures r.reply.Failure? ==> r.store == s
    ensures r.reply == Failure(BAD_REQUEST) <==>
      !TokenPresent(token) || Verify(token.value, AccessSecret, now).Malformed?
    ensures r.reply == Failure(INTERNAL_ERROR) <==>
      && TokenPresent(token)
      && (|| Verify(token.value, AccessSecret, now).Expired?
          || (Verify(token.value, AccessSecret, now).Decoded? && Verify(token.value, AccessSecret, now).claims.id !in s.accounts))
    ensures r.reply.Success? <==>
      && TokenPresent(token)
      && Verify(token.value, AccessSecret, now).Decoded? && Verify(token.value, AccessSecret, now).claims.id in s.accounts
    ensures r.reply.Success? ==>
      && r.reply.status == OK
      && var id := Verify(token.value, AccessSecret, now).claims.id;
      && ChangesOnly(s, r.store, id)
      && r.store.accounts[id].isEmailVerified
      && r.store.accounts[id].(isEmailVerified := s.accounts[id].isEmailVerified) == s.accounts[id]
      && (s.accounts[id].isEmailVerified ==> r.store == s)
    ensures Valid(s) ==> Valid(r.store)
  {
    if !TokenPresent(token) then Step(s, Failure(BAD_REQUEST))
    else match Verify(token.value, AccessSecret, now)
      case Malformed => Step(s, Failure(BAD_REQUEST))
      case Expired => Step(s, Failure(INTERNAL_ERROR))
      case Decoded(claims) =>
        if claims.id !in s.accounts then Step(s, Failure(INTERNAL_ERROR))
        else
          var user := s.accounts[claims.id];
          if user.isEmailVerified then Step(s, Success(OK, ()))
          else Step(Put(s, claims.id, PreSave(user.(isEmailVerified := true), None)), Success(OK, ()))
  }

  /** `resendEmailVerification`: email required (400) and known (404). An
      already verified account is answered at once; otherwise a verification
      token is generated and discarded. Nothing is ever stored. The reply's value
      tells whether a token was generated. */
  function ResendEmailVerification(s: Store, email: Option<string>): (r: Step<bool>)
    ensures r.store == s
    ensures r.reply == Failure(BAD_REQUEST) <==> !Present(email)
    ensures r.reply == Failure(NOT_FOUND) <==> Present(email) && FindOne(s, EmailIs(email.value)).None?
    ensures r.reply.Success? <==> Present(email) && FindOne(s, EmailIs(email.value)).Some?
    ensures r.reply.Success? ==>
      && r.reply.status == OK
      && FindOne(s, EmailIs(email.value)).Some?
      && (r.reply.value <==> !s.accounts[FindOne(s, EmailIs(email.value)).value].isEmailVerified)
  {
    if !Present(email) then Step(s, Failure(BAD_REQUEST))
    else match FindOne(s, EmailIs(email.value))
      case None => Step(s, Failure(NOT_FOUND))
      case Some(id) =>
        if s.accounts[id].isEmailVerified then Step(s, Success(OK, false))
        else Step(s, Success(OK, true))
  }

  // ------------------------------------------------------------- lifecycle

  /** `deleteUserAccount`: password required (400), the caller must still exist
      (500), the password must match (400); the document is then removed. */
  function DeleteUserAccount(s: Store, caller: UserId, password: Option<string>): (r: Step<()>)
    ensures r.reply.Failure? ==> r.store == s
    ensures r.reply == Failure(BAD_REQUEST) <==>
      !Present(password) || (caller in s.accounts && !IsPasswordCorrect(s.accounts[caller], password.value))
    ensures r.reply == Failure(INTERNAL_ERROR) <==> Present(password) && caller !in s.accounts
    ensures r.reply.Success? <==>
      Present(password) && caller in s.accounts && IsPasswordCorrect(s.accounts[caller], password.value)
    ensures r.reply.Success? ==>
      && r.reply.status == OK
      && caller in s.accounts
      && r.store.nextId == s.nextId
      && r.store.accounts.Keys == s.accounts.Keys - {caller}
      && (forall k :: k in r.store.accounts ==> r.store.accounts[k] == s.accounts[k])
    ensures Valid(s) ==> Valid(r.store)
  {
    if !Present(password) then Step(s, Failure(BAD_REQUEST))
    else if caller !in s.accounts then Step(s, Failure(INTERNAL_ERROR))
    else if !IsPasswordCorrect(s.accounts[caller], password.value) then Step(s, Failure(BAD_REQUEST))
    else Step(s.(accounts := s.accounts - {caller}), Success(OK, ()))
  }

  /** `deactivateAccount`: password required (400), caller must exist (500),
      password must match (400). The account becomes inactive with a reason
      (a default one when none is given) and a date; the stored refresh token is
      NOT cleared. */
  function DeactivateAccount(s: Store, now: Time, caller: UserId, password: Option<string>, reason: Option<string>): (r: Step<()>)
    ensures r.reply.Failure? ==> r.store == s
    ensures r.reply == Failure(BAD_REQUEST) <==>
      !Present(password) || (caller in s.accounts && !IsPasswordCorrect(s.accounts[caller], password.value))
    ensures r.reply == Failure(INTERNAL_ERROR) <==> Present(password) && caller !in s.accounts
    ensures r.reply.Success? <==>
      Present(password) && caller in s.accounts && IsPasswordCorrect(s.accounts[caller], password.value)
    ensures r.reply.Success? ==>
      && r.reply.status == OK
      && ChangesOnly(s, r.store, caller)
      && !r.store.accounts[caller].isActive
      && r.store.accounts[caller].deactivationReason == Some(if Present(reason) then reason.value else DEFAULT_DEACTIVATION_REASON)
      && r.store.accounts[caller].deactivatedAt == Some(now)
      && r.store.accounts[caller].(isActive := s.accounts[caller].isActive,
                                   deactivationReason := s.accounts[caller].deactivationReason,
                                   deactivatedAt := s.accounts[caller].deactivatedAt)
         == s.accounts[caller]
    ensures Valid(s) ==> Valid(r.store)
  {
    if !Present(password) then Step(s, Failure(BAD_REQUEST))
    else if caller !in s.accounts then Step(s, Failure(INTERNAL_ERROR))
    else
      var user := s.accounts[caller];
      if !IsPasswordCorrect(user, password.value) then Step(s, Failure(BAD_REQUEST))
      else
        var why := if Present(reason) then reason.value else DEFAULT_DEACTIVATION_REASON;
        var saved := PreSave(user.(isActive := false, deactivationReason := Some(why), deactivatedAt := Some(now)), None);
        Step(Put(s, caller, saved), Success(OK, ()))
  }

  /** `reactivateAccount`: email and password required (400), account looked up
      by email (404). An active account is answered 200 at once, with no password
      check; otherwise the password must match (400) and the account becomes
      active with reason and date cleared. */
  function ReactivateAccount(s: Store, email: Option<string>, password: Option<string>): (r: Step<()>)
    ensures r.reply.Failure? ==> r.store == s
    ensures r.reply == Failure(BAD_REQUEST) <==>
      || !Present(email) || !Present(password)
      || (&& FindOne(s, EmailIs(email.value)).Some?
          && !s.accounts[FindOne(s, EmailIs(email.value)).value].isActive
          && !IsPasswordCorrect(s.accounts[FindOne(s, EmailIs(email.value)).value], password.value))
    ensures r.reply == Failure(NOT_FOUND) <==>
      Present(email) && Present(password) && FindOne(s, EmailIs(email.value)).None?
    ensures r.reply.Success? <==>
      && Present(email) && Present(password) && FindOne(s, EmailIs(email.value)).Some?
      && var a := s.accounts[FindOne(s, EmailIs(email.value)).value];
      && (a.isActive || IsPasswordCorrect(a, password.value))
    ensures r.reply.Success? ==>
      && r.reply.status == OK
      && FindOne(s, EmailIs(email.value)).Some?
      && var id := FindOne(s, EmailIs(email.value)).value;
      && (s.accounts[id].isActive ==> r.store == s)
      && (!s.accounts[id].isActive ==>
            && ChangesOnly(s, r.store, id)
            && IsPasswordCorrect(s.accounts[id], password.value)
            && r.store.accounts[id].isActive
            && r.store.accounts[id].deactivationReason.None?
            && r.store.accounts[id].deactivatedAt.None?
            && r.store.accounts[id].(isActive := s.accounts[id].isActive,
                                     deactivationReason := s.accounts[id].deactivationReason,
                                     deactivatedAt := s.accounts[id].deactivatedAt)
               == s.accounts[id])
    ensures Valid(s) ==> Valid(r.store)
  {
    if !Present(email) || !Present(password) then Step(s, Failure(BAD_REQUEST))
    else match FindOne(s, EmailIs(email.value))
      case None => Step(s, Failure(NOT_FOUND))
      case Some(id) =>
        var user := s.accounts[id];
        if user.isActive then Step(s, Success(OK, ()))
        else if !IsPasswordCorrect(user, password.value) then Step(s, Failure(BAD_REQUEST))
        else
          var saved := PreSave(user.(isActive := true, deactivationReason := None, deactivatedAt := None), None);
          Step(Put(s, id, saved), Success(OK, ()))
  }

  // ----------------------------------------------------------------- admin

  /** The `$set` built by `updateUserStatus`: flags when given, the role when
      truthy. No update validators run, so any role string is stored. */
  function StatusPatch(isActive: Option<bool>, isEmailVerified: Option<bool>, role: Option<string>): (p: Patch)
    ensures forall a: Account :: ApplyPatch(a, p).isActive == (if isActive.Some? then isActive.value else a.isActive)
    ensures forall a: Account :: ApplyPatch(a, p).isEmailVerified == (if isEmailVerified.Some? then isEmailVerified.value else a.isEmailVerified)
    ensures forall a: Account :: Present(role) ==> RoleName(ApplyPatch(a, p).role) == role.value
    ensures forall a: Account :: !Present(role) ==> ApplyPatch(a, p).role == a.role
    ensures forall a: Account :: ApplyPatch(a, p).fullName == a.fullName
  {
    Patch(isActive, isEmailVerified, if Present(role) then role else None, None)
  }

  /** `updateUserStatus`: the target id is required (400) and must exist (404);
      the given fields are set and nothing else changes. */
  function UpdateUserStatus(s: Store, userId: Option<UserId>, isActive: Option<bool>, isEmailVerified: Option<bool>, role: Option<string>): (r: Step<()>)
    ensures r.reply.Failure? ==> r.store == s
    ensures r.reply == Failure(BAD_REQUEST) <==> userId.None?
    ensures r.reply == Failure(NOT_FOUND) <==> userId.Some? && userId.value !in s.accounts
    ensures r.reply.Success? <==> userId.Some? && userId.value in s.accounts
    ensures r.reply.Success? ==>
      && r.reply.status == OK
      && ChangesOnly(s, r.store, userId.value)
      && r.store.accounts[userId.value] == ApplyPatch(s.accounts[userId.value], StatusPatch(isActive, isEmailVerified, role))
    ensures Valid(s) ==> Valid(r.store)
  {
    if userId.None? then Step(s, Failure(BAD_REQUEST))
    else if userId.value !in s.accounts then Step(s, Failure(NOT_FOUND))
    else
      var id := userId.value;
      Step(Put(s, id, ApplyPatch(s.accounts[id], StatusPatch(isActive, isEmailVerified, role))), Success(OK, ()))
  }

  /** The ids named by a bulk request. */
  function IdSet(ids: seq<UserId>): set<UserId> {
    set k | k in ids
  }

  /** The `$set` each updating bulk operation applies. */
  function BulkPatch(operation: string, data: Patch): Patch {
    if operation == "activate" then Patch(Some(true), None, None, None)
    else if operation == "deactivate" then Patch(Some(false), None, None, None)
    else data
  }

  /** `bulkUserOperations`: an operation and an id array are required and the
      operation must be one of activate/deactivate/delete/update (400). The
      reply's count is `modifiedCount || deletedCount`: every matched document is
      modified (the timestamps option rewrites `updatedAt`), and a zero from an
      update falls through to the absent `deletedCount`. */
  function BulkUserOperations(s: Store, operation: Option<string>, userIds: Option<seq<UserId>>, data: Patch): (r: Step<BulkReply>)
    ensures r.reply.Failure? ==> r.reply.code == BAD_REQUEST && r.store == s
    ensures r.reply.Failure? <==>
      || !Present(operation) || userIds.None?
      || (operation.value != "activate" && operation.value != "deactivate" && operation.value != "delete" && operation.value != "update")
    ensures r.reply.Success? ==>
      && r.reply.status == OK
      && var op := operation.value;
      && var ids := IdSet(userIds.value);
      && var n := |ids * s.accounts.Keys|;
      && r.reply.value.operation == op
      && r.reply.value.modifiedCount == (if op == "delete" then Some(n) else if n == 0 then None else Some(n))
      && r.store.nextId == s.nextId
      && (op == "delete" ==>
            && r.store.accounts.Keys == s.accounts.Keys - ids
            && forall k :: k in r.store.accounts ==> r.store.accounts[k] == s.accounts[k])
      && (op != "delete" ==>
            && r.store.accounts.Keys == s.accounts.Keys
            && forall k :: k in s.accounts ==>
                 r.store.accounts[k] == (if k in ids then ApplyPatch(s.accounts[k], BulkPatch(op, data)) else s.accounts[k]))
      && (op == "activate" ==>
            forall k :: k in s.accounts && k in ids ==> r.store.accounts[k] == s.accounts[k].(isActive := true))
      && (op == "deactivate" ==>
            forall k :: k in s.accounts && k in ids ==> r.store.accounts[k] == s.accounts[k].(isActive := false))
      && (op == "update" ==>
            forall k :: k in s.accounts && k in ids ==> r.store.accounts[k] == ApplyPatch(s.accounts[k], data))
    ensures Valid(s) ==> Valid(r.store)
  {
    if !Present(operation) || userIds.None? then Step(s, Failure(BAD_REQUEST))
    else
      var op := operation.value;
      var ids := IdSet(userIds.value);
      var n := |ids * s.accounts.Keys|;
      if op == "delete" then
        Step(RemoveAll(s, ids), Success(OK, BulkReply(Some(n), op)))
      else if op == "activate" || op == "deactivate" || op == "update" then
        Step(PatchAll(s, ids, BulkPatch(op, data)), Success(OK, BulkReply(if n == 0 then None else Some(n), op)))
      else Step(s, Failure(BAD_REQUEST))
  }

  // ---------------------------------------------------------- registration

  /** The existing account that blocks a registration: the first one sharing the
      username or the email. */
  function RegistrationClash(s: Store, username: Option<string>, email: Option<string>): Option<UserId> {
    FindOne(s, UsernameOrEmail(username, email))
  }

  /** `registerUser`, with the avatar upload reduced to its outcome (`avatar`,
      the uploaded URL or nothing). The empty-field check never rejects: its
      callback returns nothing. An existing username or email is 409, a missing
      avatar 400, and a missing or empty required field fails in `toLowerCase`
      or the schema validator (500). The new account gets the next id. */
  function RegisterUser(s: Store, now: Time, salt: nat, fullName: Option<string>, email: Option<string>,
                        username: Option<string>, password: Option<string>, avatar: Option<string>): (r: Step<UserId>)
    ensures r.reply.Failure? ==> r.store == s
    ensures r.reply == Failure(CONFLICT) <==> RegistrationClash(s, username, email).Some?
    ensures r.reply == Failure(BAD_REQUEST) <==> RegistrationClash(s, username, email).None? && avatar.None?
    ensures r.reply == Failure(INTERNAL_ERROR) <==>
      && RegistrationClash(s, username, email).None? && avatar.Some?
      && !(Present(fullName) && Present(email) && Present(username) && Present(password))
    ensures r.reply.Success? <==>
      && RegistrationClash(s, username, email).None? && avatar.Some?
      && Present(fullName) && Present(email) && Present(username) && Present(password)
    ensures r.reply.Success? ==>
      && r.reply.status == CREATED
      && r.reply.value == s.nextId
      && r.store.nextId == s.nextId + 1
      && r.store.accounts == s.accounts[s.nextId := CreateAccount(username.value, email.value, fullName.value, password.value, salt, now)]
    ensures Valid(s) ==> Valid(r.store)
    ensures Valid(s) && r.reply.Success? ==> r.reply.value !in s.accounts
  {
    if RegistrationClash(s, username, email).Some? then Step(s, Failure(CONFLICT))
    else if avatar.None? then Step(s, Failure(BAD_REQUEST))
    else if !(Present(fullName) && Present(email) && Present(username) && Present(password)) then Step(s, Failure(INTERNAL_ERROR))
    else
      var id := s.nextId;
      var user := CreateAccount(username.value, email.value, fullName.value, password.value, salt, now);
      Step(Store(s.accounts[id := user], s.nextId + 1), Success(CREATED, id))
  }
}

=== FILE: user_model.dfy ===
/** The User schema and its instance methods: field defaults, the role enum, the
    pre-save password hook, password checking, the four token generators, login
    statistics and the small derived predicates. */
module UserModel {
  import opened Common
  import opened Crypto

  // ------------------------------------------------------------------ roles

  /** The `role` field. The schema's enum lists user/admin/moderator, but an update
      that runs without validators can store any string, kept as `UnlistedRole`. */
  datatype Role = UserRole | AdminRole | ModeratorRole | UnlistedRole(name: string)

  /** The string stored in the document for a role. */
  function RoleName(r: Role): string {
    match r
    case UserRole => "user"
    case AdminRole => "admin"
    case ModeratorRole => "moderator"
    case UnlistedRole(n) => n
  }

  /** A role in its one representation: a string of the enum is never kept as
      `UnlistedRole`, so equal stored strings are equal roles. */
  predicate Canonical(r: Role) {
    r.UnlistedRole? ==> r.name != "user" && r.name != "admin" && r.name != "moderator"
  }

  /** The role a stored string denotes. */
  function ParseRole(s: string): (r: Role)
    ensures RoleName(r) == s
    ensures Canonical(r)
    ensures r.UnlistedRole? <==> s != "user" && s != "admin" && s != "moderator"
  {
    if s == "user" then UserRole
    else if s == "admin" then AdminRole
    else if s == "moderator" then ModeratorRole
    else UnlistedRole(s)
  }

  /** Reading back the stored string of a canonical role gives the role again. */
  lemma RoleNameRoundTrip(r: Role)
    requires Canonical(r)
    ensures ParseRole(RoleName(r)) == r
  {
  }

  /** Whether a role is one the schema's enum allows. */
  predicate InRoleEnum(r: Role) {
    !r.UnlistedRole?
  }

  // ---------------------------------------------------------------- account

  /** A calendar date as read by `getFullYear`/`getMonth`/`getDate`. */
  datatype CalendarDate = CalendarDate(year: int, month: int, day: int)

  /** The authentication-relevant part of a user document. */
  datatype Account = Account(
    username: string,
    email: string,
    fullName: string,
    passwordHash: Hash,
    refreshToken: Option<Token>,
    isEmailVerified: bool,
    isActive: bool,
    role: Role,
    loginCount: int,
    lastLoginAt: Option<Time>,
    lastActivityAt: Time,
    deactivationReason: Option<string>,
    deactivatedAt: Option<Time>,
    dateOfBirth: Option<CalendarDate>)

  /** A new document as `User.create` stores it: the given identity fields, the
      schema defaults for everything else, and the password put through the
      pre-save hook with a freshly drawn salt. */
  function CreateAccount(username: string, email: string, fullName: string, password: string, salt: nat, now: Time): (a: Account)
    ensures a.username == username && a.email == email && a.fullName == fullName
    ensures !a.isEmailVerified && a.isActive && a.role == UserRole && a.loginCount == 0
    ensures a.refreshToken.None? && a.lastLoginAt.None? && a.lastActivityAt == now
    ensures a.deactivationReason.None? && a.deactivatedAt.None? && a.dateOfBirth.None?
    ensures IsPasswordCorrect(a, password)
    ensures forall q :: q != password ==> !IsPasswordCorrect(a, q)
  {
    Account(username, email, fullName, HashPassword(password, salt), None,
            false, true, UserRole, 0, None, now, None, None, None)
  }

  // ------------------------------------------------------- password & save

  /** A plaintext assigned to `user.password` since the document was loaded,
      with the salt `bcrypt.hash` will draw for it. */
  datatype PendingPassword = PendingPassword(plain: string, salt: nat)

  /** The pre-save hook: the password is re-hashed only when it was modified;
      every other save leaves the stored digest, and the whole document, as it is. */
  function PreSave(a: Account, pending: Option<PendingPassword>): (r: Account)
    ensures pending.None? ==> r == a
    ensures pending.Some? ==> r.(passwordHash := a.passwordHash) == a
    ensures pending.Some? ==> IsPasswordCorrect(r, pending.value.plain)
    ensures pending.Some? ==> forall q :: q != pending.value.plain ==> !IsPasswordCorrect(r, q)
  {
    match pending
    case None => a
    case Some(p) => a.(passwordHash := HashPassword(p.plain, p.salt))
  }

  /** `user.isPasswordCorrect(password)`. */
  function IsPasswordCorrect(a: Account, password: string): (ok: bool)
    ensures ok <==> exists salt :: a.passwordHash == HashPassword(password, salt)
  {
    var ok := Compare(password, a.passwordHash);
    assert ok ==> a.passwordHash == HashPassword(password, a.passwordHash.salt);
    ok
  }

  // ----------------------------------------------------------------- tokens

  /** The deployment's token lifetimes in seconds: ACCESS_TOKEN_EXPIRY and
      REFRESH_TOKEN_EXPIRY. */
  datatype Config = Config(accessTtl: nat, refreshTtl: nat)

  /** Lifetime of a password-reset token: "15m". */
  const RESET_TTL: nat := 15 * 60

  /** Lifetime of an email-verification token: "24h". */
  const VERIFICATION_TTL: nat := 24 * 60 * 60

  /** The payload of an access token: `_id`, email, username and role. */
  function AccessClaims(id: UserId, a: Account): Claims {
    Claims(id, Some(a.email), Some(a.username), Some(RoleName(a.role)))
  }

  /** The payload of a refresh token: `_id` only. */
  function RefreshClaims(id: UserId): Claims {
    Claims(id, None, None, None)
  }

  /** The payload of a reset or verification token: `_id` and email. */
  function PurposeClaims(id: UserId, a: Account): Claims {
    Claims(id, Some(a.email), None, None)
  }

  /** `generateAccessToken`: verifies under the access secret to the account's
      identity claims until the access lifetime has elapsed, never under the
      refresh secret. */
  function GenerateAccessToken(cfg: Config, id: UserId, a: Account, now: Time): (t: Token)
    ensures forall later :: Verify(t, AccessSecret, later) == (if later < now + cfg.accessTtl then Decoded(AccessClaims(id, a)) else Expired)
    ensures forall later :: Verify(t, RefreshSecret, later) == Malformed
  {
    Sign(AccessClaims(id, a), AccessSecret, now, cfg.accessTtl)
  }

  /** `generateRefreshToken`: verifies under the refresh secret to `{_id}` alone
      until the refresh lifetime has elapsed, never under the access secret. */
  function GenerateRefreshToken(cfg: Config, id: UserId, now: Time): (t: Token)
    ensures forall later :: Verify(t, RefreshSecret, later) == (if later < now + cfg.refreshTtl then Decoded(RefreshClaims(id)) else Expired)
    ensures forall later :: Verify(t, AccessSecret, later) == Malformed
  {
    Sign(RefreshClaims(id), RefreshSecret, now, cfg.refreshTtl)
  }

  /** `generatePasswordResetToken`: signed with the ACCESS secret for 15 minutes. */
  function GeneratePasswordResetToken(id: UserId, a: Account, now: Time): (t: Token)
    ensures forall later :: Verify(t, AccessSecret, later) == (if later < now + RESET_TTL then Decoded(PurposeClaims(id, a)) else Expired)
    ensures forall later :: Verify(t, RefreshSecret, later) == Malformed
  {
    Sign(PurposeClaims(id, a), AccessSecret, now, RESET_TTL)
  }

  /** `generateEmailVerificationToken`: signed with the ACCESS secret for 24 hours. */
  function GenerateEmailVerificationToken(id: UserId, a: Account, now: Time): (t: Token)
    ensures forall later :: Verify(t, AccessSecret, later) == (if later < now + VERIFICATION_TTL then Decoded(PurposeClaims(id, a)) else Expired)
    ensures forall later :: Verify(t, RefreshSecret, later) == Malformed
  {
    Sign(PurposeClaims(id, a), AccessSecret, now, VERIFICATION_TTL)
  }

  // --------------------------------------------------------- login stats

  /** `updateLoginStats`: one more login, both timestamps set to now, and the save
      touches no password, so nothing else changes. */
  function UpdateLoginStats(a: Account, now: Time): (r: Account)
    ensures r.loginCount == a.loginCount + 1
    ensures r.lastLoginAt == Some(now) && r.lastActivityAt == now
    ensures r.(loginCount := a.loginCount, lastLoginAt := a.lastLoginAt, lastActivityAt := a.lastActivityAt) == a
  {
    PreSave(a.(loginCount := a.loginCount + 1, lastLoginAt := Some(now), lastActivityAt := now), None)
  }

  // ------------------------------------------------------ derived queries

  /** `canPerformAction`: an account may act only while it is active and its
      email is verified, and then it always may. */
  function CanPerformAction(a: Account): (ok: bool)
    ensures !a.isActive ==> !ok
    ensures !a.isEmailVerified ==> !ok
    ensures a.isActive && a.isEmailVerified ==> ok
  {
    a.isActive && a.isEmailVerified
  }

  /** `getDisplayName`: `fullName || username`. */
  function GetDisplayName(a: Account): (name: string)
    ensures a.fullName != "" ==> name == a.fullName
    ensures a.fullName == "" ==> name == a.username
  {
    if a.fullName != "" then a.fullName else a.username
  }

  /** `isAdmin`: a comparison of the stored role string. */
  function IsAdmin(a: Account): (ok: bool)
    ensures Canonical(a.role) ==> (ok <==> a.role == AdminRole)
    ensures a.role.UnlistedRole? && Canonical(a.role) ==> !ok
  {
    RoleName(a.role) == "admin"
  }

  /** `isModerator`: moderators and admins, again by the stored string. */
  function IsModerator(a: Account): (ok: bool)
    ensures IsAdmin(a) ==> ok
    ensures Canonical(a.role) ==> (ok <==> a.role == AdminRole || a.role == ModeratorRole)
  {
    RoleName(a.role) == "moderator" || RoleName(a.role) == "admin"
  }

  /** Every admin passes the moderator check; for a canonical role the checks
      admit exactly the admin role, and exactly the admin and moderator roles. */
  lemma AdminIsModerator(a: Account)
    ensures IsAdmin(a) ==> IsModerator(a)
    ensures Canonical(a.role) ==> (IsAdmin(a) <==> a.role == AdminRole)
    ensures Canonical(a.role) ==> (IsModerator(a) <==> a.role == AdminRole || a.role == ModeratorRole)
  {
  }

  // -------------------------------------------------------------- age

  /** Whether the `n`-th birthday after `birth` has been reached on `today`
      (dates compared as (year, month, day) triples). */
  predicate BirthdayReached(birth: CalendarDate, today: CalendarDate, n: int) {
    || birth.year + n < today.year
    || (birth.year + n == today.year && birth.month < today.month)
    || (birth.year + n == today.year && birth.month == today.month && birth.day <= today.day)
  }

  /** The `age` virtual: null without a date of birth, else the year difference,
      one less when today's (month, day) comes before the birthday's. The result
      is the number of birthdays reached: exactly the `n` up to it are reached. */
  function Age(dateOfBirth: Option<CalendarDate>, today: CalendarDate): (age: Option<int>)
    ensures age.None? <==> dateOfBirth.None?
    ensures age.Some? ==> forall n :: BirthdayReached(dateOfBirth.value, today, n) <==> n <= age.value
  {
    match dateOfBirth
    case None => None
    case Some(birth) =>
      var years := today.year - birth.year;
      var monthDiff := today.month - birth.month;
      if monthDiff < 0 || (monthDiff == 0 && today.day < birth.day) then Some(years - 1)
      else Some(years)
  }
}

=== FILE: user_store.dfy ===
/** The users collection: accounts keyed by id, the queries the controller runs
    against it, and the invariants every handler keeps. */
module UserStore {
  import opened Common
  import opened Crypto
  import opened UserModel

  /** The collection, with the next id to hand out on `User.create`. */
  datatype Store = Store(accounts: map<UserId, Account>, nextId: UserId)

  /** A collection with no users. */
  const EmptyStore: Store := Store(map[], 0)

  /** A stored refresh token is always one signed for its own account. */
  predicate IssuedFor(t: Token, id: UserId) {
    t.Signed? && t.secret == RefreshSecret && t.claims == RefreshClaims(id)
  }

  /** The collection's invariants: ids below the allocator, non-empty and unique
      usernames and emails (the schema's `required` and `unique`), and a stored
      refresh token that belongs to its account. Roles are held canonically, so
      the role of an account is determined by its stored string. */
  predicate Valid(s: Store) {
    && (forall k :: k in s.accounts ==> k < s.nextId)
    && (forall k :: k in s.accounts ==> Canonical(s.accounts[k].role))
    && (forall k :: k in s.accounts ==> s.accounts[k].username != "" && s.accounts[k].email != "")
    && (forall i, j :: i in s.accounts && j in s.accounts && i != j ==>
          s.accounts[i].username != s.accounts[j].username && s.accounts[i].email != s.accounts[j].email)
    && (forall k :: k in s.accounts && s.accounts[k].refreshToken.Some? ==> IssuedFor(s.accounts[k].refreshToken.value, k))
  }

  lemma EmptyStoreValid()
    ensures Valid(EmptyStore)
  {
  }

  /** Every account of a valid store has a non-empty display name. */
  lemma DisplayNameNonEmpty(s: Store, id: UserId)
    requires Valid(s) && id in s.accounts
    ensures GetDisplayName(s.accounts[id]) != ""
  {
  }

  /** The filters the controller passes to `User.findOne`: by email, and by
      username or email. An absent value matches no stored
      document, since every stored document has both fields. */
  datatype Filter =
    | EmailIs(address: string)
    | UsernameOrEmail(username: Option<string>, email: Option<string>)

  predicate Matches(a: Account, f: Filter) {
    match f
    case EmailIs(e) => a.email == e
    case UsernameOrEmail(u, e) => (u.Some? && a.username == u.value) || (e.Some? && a.email == e.value)
  }

  /** `User.findOne(f)`: a matching document. The database leaves the choice among
      several matches open; the model picks the least matching id. */
  function FindOne(s: Store, f: Filter): (r: Option<UserId>)
    ensures r.Some? ==> r.value in s.accounts && Matches(s.accounts[r.value], f)
    ensures r.Some? ==> forall k :: k in s.accounts && k < r.value ==> !Matches(s.accounts[k], f)
    ensures r.None? && Valid(s) ==> forall k :: k in s.accounts ==> !Matches(s.accounts[k], f)
  {
    Scan(s, f, 0)
  }

  /** The first matching id in `[from, s.nextId)`. */
  function Scan(s: Store, f: Filter, from: nat): (r: Option<UserId>)
    ensures r.Some? ==> from <= r.value < s.nextId && r.value in s.accounts && Matches(s.accounts[r.value], f)
    ensures forall k :: k in s.accounts && from <= k && (r.None? || k < r.value) && k < s.nextId ==> !Matches(s.accounts[k], f)
    decreases s.nextId - from
  {
    if from >= s.nextId then None
    else if from in s.accounts && Matches(s.accounts[from], f) then Some(from)
    else Scan(s, f, from + 1)
  }

  /** In a valid store an email lookup finds the one account with that email. */
  lemma FindByEmailUnique(s: Store, id: UserId)
    requires Valid(s) && id in s.accounts
    ensures FindOne(s, EmailIs(s.accounts[id].email)) == Some(id)
  {
  }

  /** The store with account `id` replaced by `a`. */
  function Put(s: Store, id: UserId, a: Account): Store {
    s.(accounts := s.accounts[id := a])
  }

  /** `s2` differs from `s` at most in the existing account `id`. */
  predicate ChangesOnly(s: Store, s2: Store, id: UserId) {
    && s2.nextId == s.nextId
    && id in s.accounts && id in s2.accounts
    && s2.accounts == s.accounts[id := s2.accounts[id]]
  }

  /** The fields the status and bulk endpoints may `$set`; `None` leaves a field
      alone. The role is the request's string, stored as given. */
  datatype Patch = Patch(isActive: Option<bool>, isEmailVerified: Option<bool>, role: Option<string>, fullName: Option<string>)

  /** A `$set` of a patch: each given field takes the given value, and nothing
      else in the document changes. */
  function ApplyPatch(a: Account, p: Patch): (b: Account)
    ensures p.isActive.Some? ==> b.isActive == p.isActive.value
    ensures p.isEmailVerified.Some? ==> b.isEmailVerified == p.isEmailVerified.value
    ensures p.role.Some? ==> RoleName(b.role) == p.role.value && Canonical(b.role)
    ensures p.role.None? ==> b.role == a.role
    ensures b.username == a.username && b.email == a.email && b.refreshToken == a.refreshToken
    ensures Canonical(a.role) ==> Canonical(b.role)
    ensures p.fullName.Some? ==> b.fullName == p.fullName.value
    ensures p == Patch(None, None, None, None) ==> b == a
    ensures b.(isActive := a.isActive, isEmailVerified := a.isEmailVerified, role := a.role, fullName := a.fullName) == a
  {
    a.(isActive := if p.isActive.Some? then p.isActive.value else a.isActive,
       isEmailVerified := if p.isEmailVerified.Some? then p.isEmailVerified.value else a.isEmailVerified,
       role := if p.role.Some? then ParseRole(p.role.value) else a.role,
       fullName := if p.fullName.Some? then p.fullName.value else a.fullName)
  }

  /** An `updateMany` that sets `p` on every listed account. */
  function PatchAll(s: Store, ids: set<UserId>, p: Patch): (r: Store)
    ensures r.nextId == s.nextId && r.accounts.Keys == s.accounts.Keys
    ensures forall k :: k in s.accounts && k in ids ==> r.accounts[k] == ApplyPatch(s.accounts[k], p)
    ensures forall k :: k in s.accounts && k !in ids ==> r.accounts[k] == s.accounts[k]
    ensures Valid(s) ==> Valid(r)
  {
    var r := s.(accounts := map k | k in s.accounts :: if k in ids then ApplyPatch(s.accounts[k], p) else s.accounts[k]);
    KeepsIdentitiesAndSessions(s, r);
    r
  }

  /** A store that keeps every account's id, identity, session and canonical role
      is as valid as the one it came from. */
  lemma KeepsIdentitiesAndSessions(s: Store, r: Store)
    requires r.nextId == s.nextId && r.accounts.Keys == s.accounts.Keys
    requires forall k :: k in s.accounts ==>
      && r.accounts[k].username == s.accounts[k].username
      && r.accounts[k].email == s.accounts[k].email
      && r.accounts[k].refreshToken == s.accounts[k].refreshToken
      && (Canonical(s.accounts[k].role) ==> Canonical(r.accounts[k].role))
    ensures Valid(s) ==> Valid(r)
  {
  }

  /** A `deleteMany` of the listed accounts: the named accounts are gone and every
      other account is as it was. */
  function RemoveAll(s: Store, ids: set<UserId>): (r: Store)
    ensures r.nextId == s.nextId && r.accounts.Keys == s.accounts.Keys - ids
    ensures forall k :: k in r.accounts ==> r.accounts[k] == s.accounts[k]
    ensures Valid(s) ==> Valid(r)
  {
    s.(accounts := s.accounts - ids)
  }

  /** Two collections that hold the same ids with the same usernames and emails. */
  predicate SameIdentities(s1: Store, s2: Store) {
    && s1.nextId == s2.nextId
    && s1.accounts.Keys == s2.accounts.Keys
    && forall k :: k in s1.accounts ==>
         s1.accounts[k].username == s2.accounts[k].username && s1.accounts[k].email == s2.accounts[k].email
  }

  /** Lookups only see identities: changing any other field of any account does
      not change which account `findOne` returns. */
  lemma FindOneFrame(s1: Store, s2: Store, f: Filter)
    requires SameIdentities(s1, s2)
    ensures FindOne(s1, f) == FindOne(s2, f)
  {
  }
}
